=== FILE: README.md ===
# XBM logger discovery — a Dafny model

`xbminiDLcli.py` is a command-line downloader for XBM data loggers: small
devices that show up as removable volumes labelled `X<digits>D<digits>`.
This project models its pure core:

- **Volume Scanner** (`getXBMdrives`). It recognises XBM labels and dispatches
  on the platform. On Windows it splits the NUL-separated drive buffer,
  queries each drive's volume name, skips "not ready" drives (error 21) and
  aborts on any other error. On macOS it lists the `/Volumes` entries.
  Every other platform is an error.
- **Discovery Poller** (`XBMpoll`). It runs at most `timeout * 2` scans,
  returns the first non-empty one, and sleeps one tick after each empty one.
- **Source selection and transfer** (`mainCLI`, `transferdata`). The first
  drive found is the download source. With zero `DATA-*.csv` logs the
  transfer returns before creating a directory or copying a file.

Operating-system answers are inputs. `OsView` holds what one scan would
see: the drive buffer, one `GetVolumeInformation` answer per drive, and the
`/Volumes` entries. The poller takes the sequence of scan results, one per
attempt, and counts time in ticks of half a second.

Modules: `Results` (Option/Result), `XbmLabel` (label rule), `DriveStrings`
(NUL split), `VolumeScanner`, `Poller`, `Transfer`.

## Model

| member | source | states |
|---|---|---|
| XbmLabel.IsXbmLabel | xbminiDLcli.py:68-89 | the hand-written recogniser for `re.match('X\d+D\d+', …)`; an accepted label has at least four characters and starts with `X` and a digit (exactly which strings it accepts is `RecogniserCorrect`) |
| XbmLabel.DigitRun | xbminiDLcli.py:68 | the greedy `\d` run at a position: every character it covers is a digit, and the next one is not (or the string ends) |
| XbmLabel.RecogniserCorrect | xbminiDLcli.py:68 | the hand-coded recogniser accepts a label iff some split of it reads `X`, one or more digits, `D`, one or more digits from its first character on |
| XbmLabel.SuffixIrrelevant | xbminiDLcli.py:86 | `re.match` anchors only at the start: appending anything to an accepted label keeps it accepted |
| XbmLabel.AnchoredAtStart | xbminiDLcli.py:89 | a label whose first character is not `X` is rejected, even if `X\d+D\d+` occurs later |
| XbmLabel.Examples | xbminiDLcli.py:68 | `X1D2`, `X10D20`, `X1D2junk` are accepted; `aX1D2`, `X1D`, `XD12`, `x1d2`, `BACKUP` are rejected |
| DriveStrings.Fields | xbminiDLcli.py:73 | `split('\0')` yields at least one piece and no piece contains NUL |
| DriveStrings.JoinFields | xbminiDLcli.py:73 | joining the pieces of `split('\0')` with NUL gives back the buffer |
| DriveStrings.FieldsJoin | xbminiDLcli.py:73 | splitting a NUL-join of NUL-free pieces gives back exactly those pieces |
| DriveStrings.NonEmpty | xbminiDLcli.py:73 | the `if drivestr` filter keeps exactly the non-empty pieces |
| DriveStrings.NonEmptyAppend | xbminiDLcli.py:73 | the non-empty filter distributes over concatenation, so it keeps order |
| DriveStrings.SplitDrives | xbminiDLcli.py:72-73 | the drive list has no empty string and no NUL; its members are exactly the non-empty NUL-separated fields |
| DriveStrings.SplitDrivesOfJoin | xbminiDLcli.py:72-73 | for a buffer made of NUL-separated pieces, the drive list is those pieces minus the empty ones, in order |
| DriveStrings.SplitTerminated | xbminiDLcli.py:72-73 | a NUL-terminated list of drive roots, with any number of extra trailing NULs, splits back into exactly those roots in order |
| VolumeScanner.FilterXbm | xbminiDLcli.py:86 | the filter only keeps enumerated volumes, and its result is no longer than the input |
| VolumeScanner.FilterXbmMember | xbminiDLcli.py:86 | a volume is kept iff it was enumerated and its label passes the XBM rule |
| VolumeScanner.FilterXbmAppend | xbminiDLcli.py:86 | the filter distributes over concatenation, so it keeps enumeration order |
| VolumeScanner.FilterXbmSingle | xbminiDLcli.py:86 | a single volume is kept whole when accepted and dropped otherwise |
| VolumeScanner.FilterExample | xbminiDLcli.py:86-89 | labels `X1D2, BACKUP, X10D20` keep the first and third volumes, in that order |
| VolumeScanner.XbmPaths | xbminiDLcli.py:86 | every returned path belongs to an enumerated volume with an accepted label, and every such volume's path is returned |
| VolumeScanner.XbmPathsAppend | xbminiDLcli.py:86 | the selected paths keep enumeration order: selecting from two concatenated volume lists gives the two selections concatenated |
| VolumeScanner.FirstFatal | xbminiDLcli.py:78-84 | the index of the first answer that is an error other than code 21; all earlier answers are names or "not ready" |
| VolumeScanner.Assign | xbminiDLcli.py:79 | dict assignment: keys stay distinct; an existing key keeps its position and takes the new name; a new key goes at the end; nothing else changes |
| VolumeScanner.BuildTable | xbminiDLcli.py:76-84 | the query loop succeeds iff no answer is an error other than 21; on failure it reports the first such drive and code; on success the keys are exactly the drives that answered with a name |
| VolumeScanner.BuildTableDistinct | xbminiDLcli.py:76-84 | with distinct drive roots and no fatal answer, the dict is exactly the (drive, name) pairs of the named drives, in enumeration order |
| VolumeScanner.WinScan | xbminiDLcli.py:70-86 | the Windows scan fails iff some drive's query fails with a code other than 21, and then it names the first such drive and its code; on success it reports only drives that answered with a name |
| VolumeScanner.WinScanSelects | xbminiDLcli.py:72-86 | with distinct drive roots, the result is the drives whose volume name passes the XBM rule, in enumeration order; every such drive is reported, and every reported drive answered with an accepted name |
| VolumeScanner.UnnamedNotSelected | xbminiDLcli.py:78-86 | with distinct drive roots, a drive whose query gave no name never reaches the dict, so a successful Windows scan never reports it |
| VolumeScanner.NotReadySkipped | xbminiDLcli.py:78-84 | with distinct drive roots, a "not ready" drive is never the one that makes the scan fail, and it is never among the reported drives |
| VolumeScanner.MacScanAsWritten | xbminiDLcli.py:87-89 | the macOS branch as written: it reports exactly the listed entry names that pass the XBM rule, as bare names |
| VolumeScanner.MacScanAsWrittenIsRelative | xbminiDLcli.py:87-89 | as written, every macOS result is a bare accepted entry name starting with `X`, so it is not a path under `/Volumes/` |
| VolumeScanner.MacScanAsWrittenExample | xbminiDLcli.py:88-89 | as written, a logger listed as `X1D2` is reported as the relative path `X1D2` |
| VolumeScanner.MacScan | xbminiDLcli.py:87-89 | every reported path is `/Volumes/` followed by a listed entry that passes the XBM rule, and every such entry's mount point is reported |
| VolumeScanner.MacScanAppend | xbminiDLcli.py:88-89 | the macOS result keeps the order of the `/Volumes` listing |
| VolumeScanner.Classify | xbminiDLcli.py:70-92 | a platform name starting with `win` selects the Windows branch, exactly `darwin` selects the macOS branch, anything else is unsupported |
| VolumeScanner.Scan | xbminiDLcli.py:66-94 | an unsupported platform always fails with "not supported" and never yields a list; Windows fails iff a drive query fails with a code other than 21, the error naming the first such drive and its code, and reports only drives that answered with a name; macOS never fails and, in the corrected branch of the line-89 finding, reports `/Volumes/<name>` for exactly the listed entries whose name is accepted |
| VolumeScanner.ScanKeepsListingOrder | xbminiDLcli.py:87-89 | on macOS the reported list follows the order of the `/Volumes` listing: the scan of two concatenated listings is the two scans concatenated |
| VolumeScanner.ScanWindowsSelects | xbminiDLcli.py:70-86 | on Windows, with distinct drive roots and no failing query, the scan returns exactly the drives whose volume name passes the XBM rule, in enumeration order |
| Poller.Poll | xbminiDLcli.py:96-109 | `XBMpoll(timeout)`: at most `timeout * 2` scans and never more sleeps than scans; a found list is a non-empty scan result, returned unchanged; `None` only after every allowed scan was empty |
| Poller.PollFrom | xbminiDLcli.py:101-109 | the scan count stays within the limit; giving up means every scan ran and each was followed by a sleep; a found list is the last scan's non-empty result, unchanged; every earlier scan was empty; no sleep follows the deciding scan |
| Poller.NoneFoundIffAllEmpty | xbminiDLcli.py:101-109 | the poller returns nothing iff every allowed scan was empty, and then it made exactly `timeout * 2` scans and sleeps |
| Poller.PollBounds | xbminiDLcli.py:96-101 | at most `timeout * 2` scans, at most `timeout` seconds of sleep, and no scan at all when `timeout <= 0` |
| Poller.FirstHitReturned | xbminiDLcli.py:101-107 | if scan `k` is the first non-empty (or failing) one, the poll ends there: it returns that scan's list, or raises its error, after `k + 1` scans and `k` sleeps |
| Poller.LaterScansIgnored | xbminiDLcli.py:105-107 | scans after the one that ended the poll are never consulted: changing them does not change the run |
| Poller.XbmPoll | xbminiDLcli.py:96-109 | the `for … else` loop computes the same run as the recursive model, whatever polling interval is passed |
| Poller.DefaultTimeoutBound | xbminiDLcli.py:38 | with the default timeout of 5 seconds, at most 10 scans run |
| Transfer.SourceDrive | xbminiDLcli.py:49-64 | a source drive is chosen iff the poll found a non-empty list; it is that list's first drive and the rest are ignored; a failed scan's own error is re-raised unchanged |
| Transfer.SourceIsFirstOfFirstHit | xbminiDLcli.py:49-58 | the download source is the first drive of the first scan that found anything, all earlier scans having been empty; no source is chosen iff every scan was empty |
| Transfer.TransferAsWritten | xbminiDLcli.py:111-125 | with zero logs, `transferdata` returns early; with any logs it raises `NameError`; it never performs an action |
| Transfer.TransferAsWrittenNeverCopies | xbminiDLcli.py:125 | as written, any non-empty log list ends in `NameError` for `date` and nothing is performed, while the corrected plan for the same logs copies every one of them |
| Transfer.SourcesOfCopies | xbminiDLcli.py:131-133 | the copy loop copies exactly the listed logs, in order |
| Transfer.TransferPlan | xbminiDLcli.py:111-133 | zero logs means no action at all; otherwise each log is copied exactly once, in order, into the output directory; the directory is created first when it was missing, and only then |

## Left out

- `GetLogicalDriveStrings`, `GetVolumeInformation` and `listdir('/Volumes')` are calls into the operating system. Their answers are the fields of `OsView`.
- `platform.system().lower()`: the platform name is an input, assumed already lower-cased.
- `time.sleep`, the 0.5-second float interval and `int(1/pollinginterval)` are floats and timing. They are replaced by the constant `TICKS_PER_SECOND = 2`. Time is counted in sleeps, not seconds.
- Poller.Poll: it needs at least `timeout * 2` scan answers, because answers are supplied in advance rather than requested.
- click prompts, `click.pause`, `click.confirm`, the interactive retry loop, the per-logger loop of `mainCLI`, and the module-level `sys.argv` dispatch (lines 136-141). These are user I/O.
- Logging configuration, the UTC formatter (lines 20-29), and the tqdm/trange progress bars are output only.
- `glob('DATA-*.csv')` is left out; its result is the `logs` input. Its case-sensitivity depends on the platform. Also left out: the `itertools.tee` counting, `mkdir`, and `shutil.copy`. The copy and directory creation appear only as a plan of `Action`s.
- The output-path f-string (line 125) is not modelled. `TransferPlan` takes the output directory as a parameter.
- XbmLabel.IsDigit: only ASCII `0`-`9` count as digits. Python's `\d` on `str` also matches other Unicode decimal digits.
- `Path(...)` normalisation is not modelled. A path is kept as its string.
- Only `win32api.error` with a code is modelled as a failing query. Other exceptions, and a missing `/Volumes` directory on macOS, are not modelled.
- VolumeScanner.WinScan: when the drive buffer lists the same root twice, its contract says only that reported drives answered with a name. The exact result, in order, is proved (WinScanSelects) only for distinct roots. `GetLogicalDriveStrings` always reports distinct roots.
- VolumeScanner.QueryFailed: the drive in a Windows query error is added by the model to say where the query loop stopped; the `win32api.error` re-raised at line 84 carries only the error code, the function name and a message.
- VolumeScanner.Scan: its macOS branch is the corrected `MacScan` of the line-89 finding (`/Volumes/<name>`), not the bare entry name the source returns; the branch as written is `MacScanAsWritten`.
- VolumeScanner.Scan: on Windows the contract says only that reported drives answered with a name. The full selection rule, in order, is ScanWindowsSelects, for distinct drive roots.

## Findings

| source | as written | input that shows it | evidently intended | confidence | as-written member | corrected member |
|---|---|---|---|---|---|---|
| xbminiDLcli.py:89 | `Path(volume)` for an entry of `/Volumes` is the bare name, a path relative to the working directory | `/Volumes` contains `X1D2`; the scan returns `X1D2`, and `transferdata` then looks in `./X1D2/GCDC` | the mount point `/Volumes/X1D2`, which is what a Volume is (an OS mount path) | medium (not executed) | VolumeScanner.MacScanAsWrittenIsRelative | VolumeScanner.MacScan |
| xbminiDLcli.py:125 | the output path uses `date`, `location` and `systemname`, which are parameters of `mainCLI` and not defined in `transferdata` | any volume with at least one `DATA-*.csv` log: evaluating the f-string raises `NameError` before `mkdir` or any copy | the drop's directory is created if missing, and every log is copied into it | high (not executed) | Transfer.TransferAsWrittenNeverCopies | Transfer.TransferPlan |

`Scan` uses the corrected macOS branch (`MacScan`). `MacScanAsWritten` keeps
the branch as written, for comparison.

=== FILE: drive_strings.dfy ===
/** The drive-letter list of the Windows branch of `getXBMdrives`:
    `[d for d in drives.split('\000') if d]`, where `drives` is the buffer
    returned by `GetLogicalDriveStrings` (each root NUL-terminated). */
module DriveStrings {

  const NUL: char := '\0'

  /** Python's `s.split('\0')`: the pieces between separators, empty pieces
      included, always at least one piece. */
  function Fields(s: string): (r: seq<string>)
    ensures |r| >= 1
    ensures forall f :: f in r ==> NUL !in f
    decreases |s|
  {
    if |s| == 0 then [""]
    else
      var rest := Fields(s[1..]);
      if s[0] == NUL then [""] + rest
      else [[s[0]] + rest[0]] + rest[1..]
  }

  /** Python's `'\0'.join(fs)`. */
  function Join(fs: seq<string>): string
    decreases |fs|
  {
    if |fs| == 0 then ""
    else if |fs| == 1 then fs[0]
    else fs[0] + [NUL] + Join(fs[1..])
  }

  /** `[f for f in fs if f]`: the non-empty pieces, in order. */
  function NonEmpty(fs: seq<string>): (r: seq<string>)
    ensures |r| <= |fs|
    ensures forall f :: f in r <==> f in fs && f != ""
    decreases |fs|
  {
    if |fs| == 0 then []
    else if fs[0] == "" then NonEmpty(fs[1..])
    else [fs[0]] + NonEmpty(fs[1..])
  }

  /** The drive roots named by a `GetLogicalDriveStrings` buffer. */
  function SplitDrives(raw: string): (r: seq<string>)
    ensures forall d :: d in r ==> d != "" && NUL !in d
    ensures forall d :: d in r <==> d in Fields(raw) && d != ""
  {
    NonEmpty(Fields(raw))
  }

  /** Splitting, then joining, gives back the buffer. */
  lemma {:induction false} JoinFields(s: string)
    ensures Join(Fields(s)) == s
    decreases |s|
  {
    if |s| > 0 {
      var rest := Fields(s[1..]);
      JoinFields(s[1..]);
      if s[0] == NUL {
        assert Fields(s) == [""] + rest;
        assert Join(Fields(s)) == "" + [NUL] + Join(rest);
        assert s == [NUL] + s[1..];
      } else if |rest| == 1 {
        assert Fields(s) == [[s[0]] + rest[0]];
        assert s == [s[0]] + s[1..];
      } else {
        var head := [s[0]] + rest[0];
        assert Fields(s) == [head] + rest[1..];
        assert Join(Fields(s)) == head + [NUL] + Join(rest[1..]);
        assert Join(rest) == rest[0] + [NUL] + Join(rest[1..]);
        assert s == [s[0]] + s[1..];
      }
    }
  }

  /** A NUL-free prefix extends the first piece and leaves the others alone. */
  lemma {:induction false} FieldsPrefix(x: string, t: string)
    requires NUL !in x
    ensures Fields(x + t) == [x + Fields(t)[0]] + Fields(t)[1..]
    decreases |x|
  {
    if |x| > 0 {
      FieldsPrefix(x[1..], t);
      assert (x + t)[1..] == x[1..] + t;
      assert (x + t)[0] == x[0];
      assert [x[0]] + (x[1..] + Fields(t)[0]) == x + Fields(t)[0];
    } else {
      assert x + t == t;
      assert x + Fields(t)[0] == Fields(t)[0];
      assert Fields(t) == [Fields(t)[0]] + Fields(t)[1..];
    }
  }

  /** Joining NUL-free pieces, then splitting, gives back the pieces. */
  lemma {:induction false} FieldsJoin(fs: seq<string>)
    requires |fs| >= 1
    requires forall f :: f in fs ==> NUL !in f
    ensures Fields(Join(fs)) == fs
    decreases |fs|
  {
    if |fs| == 1 {
      FieldsPrefix(fs[0], "");
      assert fs[0] + "" == fs[0];
    } else {
      var tail := Join(fs[1..]);
      FieldsJoin(fs[1..]);
      assert Fields([NUL] + tail) == [""] + fs[1..] by {
        assert ([NUL] + tail)[1..] == tail;
      }
      assert Join(fs) == fs[0] + ([NUL] + tail);
      FieldsPrefix(fs[0], [NUL] + tail);
      assert fs[0] + "" == fs[0];
    }
  }

  /** Filtering empties distributes over concatenation, so it keeps order. */
  lemma {:induction false} NonEmptyAppend(a: seq<string>, b: seq<string>)
    ensures NonEmpty(a + b) == NonEmpty(a) + NonEmpty(b)
    decreases |a|
  {
    if |a| > 0 {
      NonEmptyAppend(a[1..], b);
      assert (a + b)[1..] == a[1..] + b;
      assert (a + b)[0] == a[0];
      var head := if a[0] == "" then [] else [a[0]];
      assert NonEmpty(a + b) == head + NonEmpty(a[1..] + b);
      assert NonEmpty(a) == head + NonEmpty(a[1..]);
      assert head + (NonEmpty(a[1..]) + NonEmpty(b)) == (head + NonEmpty(a[1..])) + NonEmpty(b);
    } else {
      assert a + b == b;
    }
  }

  /** The drive list of any buffer is exactly the non-empty NUL-separated
      pieces of that buffer, in order. */
  lemma SplitDrivesOfJoin(fs: seq<string>)
    requires |fs| >= 1
    requires forall f :: f in fs ==> NUL !in f
    ensures SplitDrives(Join(fs)) == NonEmpty(fs)
  {
    FieldsJoin(fs);
  }

  /** The shape of a `GetLogicalDriveStrings` buffer: every root followed by NUL. */
  function Terminated(ds: seq<string>): string
    decreases |ds|
  {
    if |ds| == 0 then "" else ds[0] + [NUL] + Terminated(ds[1..])
  }

  /** A NUL-terminated list is the NUL-join of the list plus one empty piece. */
  lemma {:induction false} TerminatedIsJoin(ds: seq<string>)
    ensures Terminated(ds) == Join(ds + [""])
    decreases |ds|
  {
    if |ds| > 0 {
      TerminatedIsJoin(ds[1..]);
      assert (ds + [""])[1..] == ds[1..] + [""];
      assert (ds + [""])[0] == ds[0];
    }
  }

  /** Round trip: the roots listed in a well-formed buffer are recovered
      exactly, in order; the extra terminating NUL (and any number of them)
      yields no phantom drive. */
  lemma {:induction false} SplitTerminated(ds: seq<string>, extraNuls: nat)
    requires forall d :: d in ds ==> d != "" && NUL !in d
    ensures SplitDrives(Terminated(ds) + Nuls(extraNuls)) == ds
  {
    TerminatedIsJoin(ds);
    var pieces := ds + [""] + Empties(extraNuls);
    JoinWithEmpties(ds + [""], extraNuls);
    assert forall f :: f in pieces ==> NUL !in f;
    SplitDrivesOfJoin(pieces);
    NonEmptyAppend(ds, [""] + Empties(extraNuls));
    NonEmptyAppend([""], Empties(extraNuls));
    AllNonEmpty(ds);
    NonEmptyOfEmpties(extraNuls);
    assert pieces == ds + ([""] + Empties(extraNuls));
  }

  /** `k` NUL characters. */
  function Nuls(k: nat): string
  {
    seq(k, _ => NUL)
  }

  /** `k` empty pieces. */
  function Empties(k: nat): (r: seq<string>)
    ensures |r| == k
    ensures forall f :: f in r ==> f == ""
  {
    seq(k, _ => "")
  }

  /** Each trailing NUL of a buffer is one more empty piece. */
  lemma {:induction false} JoinWithEmpties(fs: seq<string>, k: nat)
    requires |fs| >= 1
    ensures Join(fs) + Nuls(k) == Join(fs + Empties(k))
    decreases k
  {
    if k > 0 {
      JoinWithEmpties(fs, k - 1);
      JoinSnoc(fs + Empties(k - 1), "");
      assert fs + Empties(k) == fs + Empties(k - 1) + [""];
      assert Nuls(k) == Nuls(k - 1) + [NUL];
    } else {
      assert fs + Empties(0) == fs;
    }
  }

  /** Joining with one more piece appends a NUL and that piece. */
  lemma {:induction false} JoinSnoc(fs: seq<string>, x: string)
    requires |fs| >= 1
    ensures Join(fs + [x]) == Join(fs) + [NUL] + x
    decreases |fs|
  {
    if |fs| > 1 {
      JoinSnoc(fs[1..], x);
      assert (fs + [x])[1..] == fs[1..] + [x];
    }
  }

  /** The filter leaves a list of non-empty pieces unchanged. */
  lemma {:induction false} AllNonEmpty(ds: seq<string>)
    requires forall d :: d in ds ==> d != ""
    ensures NonEmpty(ds) == ds
    decreases |ds|
  {
    if |ds| > 0 {
      assert forall d :: d in ds[1..] ==> d in ds;
      AllNonEmpty(ds[1..]);
      assert ds[0] in ds;
      assert ds == [ds[0]] + ds[1..];
    }
  }

  /** The filter removes every empty piece. */
  lemma {:induction false} NonEmptyOfEmpties(k: nat)
    ensures NonEmpty(Empties(k)) == []
    decreases k
  {
    if k > 0 {
      NonEmptyOfEmpties(k - 1);
      assert Empties(k)[1..] == Empties(k - 1);
    }
  }
}

=== FILE: label.dfy ===
/** The XBM volume-label rule of `getXBMdrives`: `re.match('X\d+D\d+', label)`.
    `re.match` anchors at the start only, so the rule is a prefix test:
    `X`, one or more digits, `D`, one or more digits, then anything. */
module XbmLabel {

  /** ASCII digits only; Python's `\d` also accepts other Unicode decimal digits. */
  predicate IsDigit(c: char) {
    '0' <= c <= '9'
  }

  /** Length of the maximal run of digits starting at position `i`: what a
      greedy `\d*` consumes there. */
  function DigitRun(s: string, i: nat): (n: nat)
    requires i <= |s|
    ensures i + n <= |s|
    ensures forall k :: i <= k < i + n ==> IsDigit(s[k])
    ensures i + n == |s| || !IsDigit(s[i + n])
    decreases |s| - i
  {
    if i < |s| && IsDigit(s[i]) then 1 + DigitRun(s, i + 1) else 0
  }

  /** The hand-coded recogniser. `D` is not a digit, so the greedy first run
      is the only split the regex engine can accept, and no backtracking
      is needed. */
  predicate IsXbmLabel(s: string)
    ensures IsXbmLabel(s) ==> 4 <= |s| && s[0] == 'X' && IsDigit(s[1])
  {
    && 1 <= |s|
    && s[0] == 'X'
    && var m := DigitRun(s, 1);
       && 1 <= m
       && 1 + m < |s|
       && s[1 + m] == 'D'
       && 1 <= DigitRun(s, 2 + m)
  }

  /** `s` starts with `X`, then exactly `m` digits, then `D`, then at least
      `n` digits (the characters after the `n`-th are unconstrained). */
  ghost predicate PatternAt(s: string, m: nat, n: nat) {
    && 1 <= m
    && 1 <= n
    && m + n + 2 <= |s|
    && s[0] == 'X'
    && (forall k :: 1 <= k <= m ==> IsDigit(s[k]))
    && s[m + 1] == 'D'
    && (forall k :: m + 2 <= k < m + 2 + n ==> IsDigit(s[k]))
  }

  /** Reference definition of a start-anchored match of `X\d+D\d+`. */
  ghost predicate MatchesPattern(s: string) {
    exists m: nat, n: nat :: PatternAt(s, m, n)
  }

  /** A digit run bounded by a non-digit (or the end) is the greedy run. */
  lemma DigitRunExact(s: string, i: nat, j: nat)
    requires i <= j <= |s|
    requires forall k :: i <= k < j ==> IsDigit(s[k])
    requires j == |s| || !IsDigit(s[j])
    ensures DigitRun(s, i) == j - i
  {
  }

  /** The recogniser accepts exactly the labels the regex matches. */
  lemma RecogniserCorrect(s: string)
    ensures IsXbmLabel(s) <==> MatchesPattern(s)
  {
    if IsXbmLabel(s) {
      var m := DigitRun(s, 1);
      assert PatternAt(s, m, 1);
    }
    if MatchesPattern(s) {
      var m: nat, n: nat :| PatternAt(s, m, n);
      assert !IsDigit(s[m + 1]);
      DigitRunExact(s, 1, m + 1);
      assert IsDigit(s[m + 2]);
    }
  }

  /** Trailing characters after the second digit run never matter. */
  lemma SuffixIrrelevant(s: string, t: string)
    requires IsXbmLabel(s)
    ensures IsXbmLabel(s + t)
  {
    RecogniserCorrect(s);
    var m: nat, n: nat :| PatternAt(s, m, n);
    assert PatternAt(s + t, m, n);
    RecogniserCorrect(s + t);
  }

  /** A label whose first character is not `X` is rejected, wherever an
      `X\d+D\d+` substring may occur later in it. */
  lemma AnchoredAtStart(c: char, s: string)
    requires c != 'X'
    ensures !IsXbmLabel([c] + s)
  {
  }

  lemma Examples()
    ensures IsXbmLabel("X1D2")
    ensures IsXbmLabel("X10D20")
    ensures IsXbmLabel("X1D2junk")
    ensures !IsXbmLabel("aX1D2")
    ensures !IsXbmLabel("X1D")
    ensures !IsXbmLabel("XD12")
    ensures !IsXbmLabel("x1d2")
    ensures !IsXbmLabel("BACKUP")
  {
  }
}

=== FILE: poller.dfy ===
/** The Discovery Poller, `XBMpoll`: at most `timeout * 2` scans, half a
    second apart, stopping at the first scan that finds a logger. Time is
    counted in ticks of one polling interval; the answers of successive
    scans are an input sequence. */
module Poller {
  import opened Results
  import opened VolumeScanner

  /** `int(1 / pollinginterval)` with the interval forced to 0.5 s. */
  const TICKS_PER_SECOND: nat := 2

  /** Length of `range(0, timeout * 2)`: empty when `timeout <= 0`. */
  function Attempts(timeout: int): nat
  {
    if timeout <= 0 then 0 else timeout * TICKS_PER_SECOND
  }

  /** What `XBMpoll` hands back: the drive list, `None`, or the exception
      raised by the scan. */
  datatype PollOutcome = Found(drives: seq<Path>) | NoneFound | ScanFailed(error: ScanError)

  /** The outcome together with how many scans ran and how many sleeps
      (ticks) were spent. */
  datatype PollRun = PollRun(outcome: PollOutcome, scans: nat, sleeps: nat)

  predicate EmptyScan(s: ScanResult) {
    s.Ok? && |s.value| == 0
  }

  /** The loop from iteration `i` on, after `i` empty scans and `i` sleeps. */
  function PollFrom(results: seq<ScanResult>, i: nat, limit: nat): (r: PollRun)
    requires i <= limit <= |results|
    ensures i <= r.scans <= limit
    ensures r.outcome.NoneFound? ==> r.scans == limit && r.sleeps == limit
    ensures !r.outcome.NoneFound? ==> r.scans > i && r.sleeps == r.scans - 1
    ensures forall j :: i <= j < r.sleeps ==> EmptyScan(results[j])
    ensures r.outcome.Found? ==> results[r.scans - 1] == Ok(r.outcome.drives) && |r.outcome.drives| > 0
    ensures r.outcome.ScanFailed? ==> results[r.scans - 1] == Err(r.outcome.error)
    decreases limit - i
  {
    if i == limit then PollRun(NoneFound, i, i)
    else
      match results[i]
      case Err(e) => PollRun(ScanFailed(e), i + 1, i)
      case Ok(drives) =>
        if |drives| == 0 then PollFrom(results, i + 1, limit)
        else PollRun(Found(drives), i + 1, i)
  }

  /** `XBMpoll(timeout)`; `results[k]` is what the `k`-th scan returns. */
  function Poll(timeout: int, results: seq<ScanResult>): (r: PollRun)
    requires Attempts(timeout) <= |results|
    ensures r.sleeps <= r.scans <= Attempts(timeout)
    ensures r.outcome.Found? ==> 1 <= r.scans && |r.outcome.drives| > 0 && results[r.scans - 1] == Ok(r.outcome.drives)
    ensures r.outcome.NoneFound? ==> forall j :: 0 <= j < Attempts(timeout) ==> EmptyScan(results[j])
  {
    PollFrom(results, 0, Attempts(timeout))
  }

  /** The poller gives up (returns `None`) exactly when every allowed scan
      was empty, and then it has scanned and slept `timeout * 2` times. */
  lemma NoneFoundIffAllEmpty(timeout: int, results: seq<ScanResult>)
    requires Attempts(timeout) <= |results|
    ensures Poll(timeout, results).outcome.NoneFound?
        <==> forall j :: 0 <= j < Attempts(timeout) ==> EmptyScan(results[j])
    ensures Poll(timeout, results).outcome.NoneFound? ==>
              Poll(timeout, results).scans == Poll(timeout, results).sleeps == Attempts(timeout)
  {
  }

  /** Bounds: never more than `timeout * 2` scans, never more than
      `timeout` seconds of sleep, and nothing at all when `timeout <= 0`. */
  lemma PollBounds(timeout: int, results: seq<ScanResult>)
    requires Attempts(timeout) <= |results|
    ensures Poll(timeout, results).scans <= Attempts(timeout)
    ensures Poll(timeout, results).sleeps <= Poll(timeout, results).scans
    ensures timeout > 0 ==> Poll(timeout, results).sleeps <= timeout * TICKS_PER_SECOND
    ensures timeout <= 0 ==> Poll(timeout, results) == PollRun(NoneFound, 0, 0)
  {
  }

  /** The first scan that finds something, or fails, ends the poll: its list
      is returned unchanged, every earlier scan was empty, and no sleep
      follows it. */
  lemma FirstHitReturned(timeout: int, results: seq<ScanResult>, k: nat)
    requires Attempts(timeout) <= |results|
    requires k < Attempts(timeout)
    requires forall j :: 0 <= j < k ==> EmptyScan(results[j])
    requires !EmptyScan(results[k])
    ensures Poll(timeout, results).scans == k + 1
    ensures Poll(timeout, results).sleeps == k
    ensures results[k].Ok? ==> Poll(timeout, results).outcome == Found(results[k].value)
    ensures results[k].Err? ==> Poll(timeout, results).outcome == ScanFailed(results[k].error)
  {
  }

  /** Scans after the one that ended the poll are never consulted. */
  lemma LaterScansIgnored(results: seq<ScanResult>, other: seq<ScanResult>, i: nat, limit: nat)
    requires i <= limit <= |results| && limit <= |other|
    requires forall j :: i <= j < PollFrom(results, i, limit).scans ==> other[j] == results[j]
    ensures PollFrom(other, i, limit) == PollFrom(results, i, limit)
  {
  }

  /** The loop of `XBMpoll`, with the argument `pollingInterval` accepted and
      then ignored as in the source (it is overwritten with 0.5 s). */
  method XbmPoll(timeout: int, pollingInterval: real, results: seq<ScanResult>) returns (r: PollRun)
    requires Attempts(timeout) <= |results|
    ensures r == Poll(timeout, results)
  {
    var n := Attempts(timeout);
    var ii := 0;
    var sleeps := 0;
    while ii < n
      invariant ii <= n
      invariant sleeps == ii
      invariant PollFrom(results, ii, n) == Poll(timeout, results)
    {
      match results[ii]
      case Err(e) =>
        return PollRun(ScanFailed(e), ii + 1, sleeps);
      case Ok(drives) =>
        if |drives| == 0 {
          sleeps := sleeps + 1;
        } else {
          return PollRun(Found(drives), ii + 1, sleeps);
        }
      ii := ii + 1;
    }
    r := PollRun(NoneFound, ii, sleeps);
  }

  /** The worked bound: with the default 5-second timeout at most ten scans
      run before the poller gives up. */
  lemma DefaultTimeoutBound(results: seq<ScanResult>)
    requires 10 <= |results|
    ensures Poll(5, results).scans <= 10
  {
    PollBounds(5, results);
  }
}

=== FILE: results.dfy ===
/** Failure-carrying wrappers used throughout the model: a Python `None`
    return becomes `None`, a raised exception becomes `Err`. */
module Results {

  datatype Option<+T> = None | Some(value: T)

  datatype Result<+T, +E> = Ok(value: T) | Err(error: E)
}

=== FILE: scanner.dfy ===
/** The Volume Scanner, `getXBMdrives`: platform dispatch, Windows drive
    enumeration with per-drive label queries, the macOS mount listing, and
    the label filter shared by both branches. Operating-system answers are
    inputs; nothing here queries a real system. */
module VolumeScanner {
  import opened Results
  import opened XbmLabel
  import DriveStrings

  /** A `pathlib.Path`, kept as its string form. */
  type Path = string

  /** A mounted volume: where it is mounted and its volume name (the label the XBM rule tests). */
  datatype Volume = Volume(path: Path, name: string)

  /** Why a scan produced no list (the exceptions `getXBMdrives` lets escape). */
  datatype ScanError =
    | NotSupported(osName: string)        // NotImplementedError for other platforms
    | QueryFailed(drive: Path, code: int)  // win32api.error other than "not ready"

  type ScanResult = Result<seq<Path>, ScanError>

  // ---------------------------------------------------------------- filter

  /** The volumes whose label the XBM rule accepts, in enumeration order. */
  function FilterXbm(vols: seq<Volume>): (r: seq<Volume>)
    ensures |r| <= |vols|
    ensures forall v :: v in r ==> v in vols
    decreases |vols|
  {
    if |vols| == 0 then []
    else if IsXbmLabel(vols[0].name) then [vols[0]] + FilterXbm(vols[1..])
    else FilterXbm(vols[1..])
  }

  /** A volume survives the filter iff it was enumerated and its label is
      accepted. */
  lemma {:induction false} FilterXbmMember(vols: seq<Volume>)
    ensures forall v :: v in FilterXbm(vols) <==> v in vols && IsXbmLabel(v.name)
    decreases |vols|
  {
    if |vols| > 0 {
      FilterXbmMember(vols[1..]);
      assert vols == [vols[0]] + vols[1..];
    }
  }

  /** Filtering distributes over concatenation: it keeps enumeration order. */
  lemma {:induction false} FilterXbmAppend(a: seq<Volume>, b: seq<Volume>)
    ensures FilterXbm(a + b) == FilterXbm(a) + FilterXbm(b)
    decreases |a|
  {
    if |a| > 0 {
      FilterXbmAppend(a[1..], b);
      assert (a + b)[1..] == a[1..] + b;
      assert (a + b)[0] == a[0];
      var head := if IsXbmLabel(a[0].name) then [a[0]] else [];
      assert FilterXbm(a + b) == head + FilterXbm(a[1..] + b);
      assert FilterXbm(a) == head + FilterXbm(a[1..]);
      ConcatAssoc(head, FilterXbm(a[1..]), FilterXbm(b));
    } else {
      assert a + b == b;
    }
  }

  /** Accepted volumes are kept whole, rejected ones dropped. */
  lemma FilterXbmSingle(v: Volume)
    ensures FilterXbm([v]) == if IsXbmLabel(v.name) then [v] else []
  {
  }

  /** The paths of the volumes, in order. */
  function Paths(vols: seq<Volume>): (r: seq<Path>)
    ensures |r| == |vols|
    ensures forall i :: 0 <= i < |vols| ==> r[i] == vols[i].path
  {
    seq(|vols|, i requires 0 <= i < |vols| => vols[i].path)
  }

  /** `[Path(v) for v in vols if re.match(xbmregex, label(v))]`. */
  function XbmPaths(vols: seq<Volume>): (r: seq<Path>)
    ensures |r| <= |vols|
    ensures forall i :: 0 <= i < |r| ==> exists v :: v in vols && IsXbmLabel(v.name) && v.path == r[i]
    ensures forall v :: v in vols && IsXbmLabel(v.name) ==> v.path in r
  {
    var kept := FilterXbm(vols);
    FilterXbmMember(vols);
    assert forall i :: 0 <= i < |kept| ==> kept[i] in vols && IsXbmLabel(kept[i].name);
    assert forall v :: v in vols && IsXbmLabel(v.name) ==> exists i :: 0 <= i < |kept| && kept[i] == v;
    Paths(kept)
  }

  /** Taking paths distributes over concatenation. */
  lemma PathsAppend(a: seq<Volume>, b: seq<Volume>)
    ensures Paths(a + b) == Paths(a) + Paths(b)
  {
  }

  /** The selected paths keep enumeration order: selection distributes
      over concatenation. */
  lemma XbmPathsAppend(a: seq<Volume>, b: seq<Volume>)
    ensures XbmPaths(a + b) == XbmPaths(a) + XbmPaths(b)
  {
    FilterXbmAppend(a, b);
    PathsAppend(FilterXbm(a), FilterXbm(b));
  }

  /** The worked example: labels X1D2, BACKUP, X10D20 keep the first and third. */
  lemma FilterExample(a: Path, b: Path, c: Path)
    ensures FilterXbm([Volume(a, "X1D2"), Volume(b, "BACKUP"), Volume(c, "X10D20")])
         == [Volume(a, "X1D2"), Volume(c, "X10D20")]
  {
    Examples();
    var x, y, z := Volume(a, "X1D2"), Volume(b, "BACKUP"), Volume(c, "X10D20");
    assert [x, y, z][1..] == [y, z];
    assert [y, z][1..] == [z];
    assert [z][1..] == [];
    assert FilterXbm([z]) == [z];
    assert FilterXbm([y, z]) == [z];
  }

  // ------------------------------------------------------- Windows branch

  /** The answer of `GetVolumeInformation(drive)`: the volume name, or the
      code carried by the `win32api.error` it raised. */
  datatype QueryResult = Label(text: string) | Failed(code: int)

  /** Windows ERROR_NOT_READY: a drive with no medium, skipped silently. */
  const NOT_READY: int := 21

  /** An answer that makes `getXBMdrives` re-raise. */
  predicate Fatal(q: QueryResult) {
    q.Failed? && q.code != NOT_READY
  }

  /** Index of the first fatal answer, or `|answers|` when there is none. */
  function FirstFatal(answers: seq<QueryResult>): (k: nat)
    ensures k <= |answers|
    ensures forall j :: 0 <= j < k ==> !Fatal(answers[j])
    ensures k < |answers| ==> Fatal(answers[k])
    decreases |answers|
  {
    if |answers| == 0 || Fatal(answers[0]) then 0 else 1 + FirstFatal(answers[1..])
  }

  /** The `drivenames` dict: volume names keyed by drive, in insertion order. */
  type DriveTable = seq<Volume>

  /** The drives that are keys of the dict. */
  function Keys(t: DriveTable): set<Path> {
    set v | v in t :: v.path
  }

  /** No drive is a key twice (always true of a dict). */
  predicate DistinctKeys(t: DriveTable) {
    Distinct(Paths(t))
  }

  /** Position of `drive` in the table, or `|t|` when it is not a key. */
  function Find(t: DriveTable, drive: Path): (k: nat)
    ensures k <= |t|
    ensures forall j :: 0 <= j < k ==> t[j].path != drive
    ensures k < |t| ==> t[k].path == drive
    decreases |t|
  {
    if |t| == 0 || t[0].path == drive then 0 else 1 + Find(t[1..], drive)
  }

  /** `drivenames[drive] = name`: an existing key keeps its position and
      takes the new name; a new key goes at the end. */
  function Assign(t: DriveTable, drive: Path, name: string): (r: DriveTable)
    requires DistinctKeys(t)
    ensures DistinctKeys(r)
    ensures Keys(r) == Keys(t) + {drive}
    ensures |r| == if drive in Keys(t) then |t| else |t| + 1
    ensures forall i :: 0 <= i < |t| ==> r[i] == (if t[i].path == drive then Volume(drive, name) else t[i])
    ensures drive !in Keys(t) ==> r[|t|] == Volume(drive, name)
  {
    var k := Find(t, drive);
    if k < |t| then
      assert drive in Keys(t) by { assert t[k] in t; }
      var r := t[k := Volume(drive, name)];
      assert forall i :: 0 <= i < |t| && i != k ==> t[i].path != drive;
      assert Keys(r) == Keys(t) by {
        forall p | p in Keys(t) ensures p in Keys(r) {
          var v :| v in t && v.path == p;
          var i :| 0 <= i < |t| && t[i] == v;
          assert r[i].path == p;
        }
      }
      r
    else
      assert drive !in Keys(t);
      var r := t + [Volume(drive, name)];
      assert Keys(r) == Keys(t) + {drive} by {
        forall p | p in Keys(r) ensures p in Keys(t) + {drive} {
          var v :| v in r && v.path == p;
          var i :| 0 <= i < |r| && r[i] == v;
          if i < |t| { assert t[i] in t; }
        }
        assert r[|t|] in r;
        forall p | p in Keys(t) ensures p in Keys(r) {
          var v :| v in t && v.path == p;
          assert v in r;
        }
      }
      r
  }

  /** The drives among `drives` whose query returned a name. */
  function Named(drives: seq<Path>, answers: seq<QueryResult>): set<Path>
    requires |drives| == |answers|
  {
    set i | 0 <= i < |drives| && answers[i].Label? :: drives[i]
  }

  /** The query loop of the Windows branch, starting from table `t`. */
  function BuildTable(drives: seq<Path>, answers: seq<QueryResult>, t: DriveTable): (r: Result<DriveTable, ScanError>)
    requires |drives| == |answers|
    requires DistinctKeys(t)
    ensures r.Ok? <==> FirstFatal(answers) == |answers|
    ensures r.Err? ==> r.error == QueryFailed(drives[FirstFatal(answers)], answers[FirstFatal(answers)].code)
    ensures r.Ok? ==> DistinctKeys(r.value)
    ensures r.Ok? ==> Keys(r.value) == Keys(t) + Named(drives, answers)
    decreases |drives|
  {
    if |drives| == 0 then Ok(t)
    else
      var rest := BuildTable(drives[1..], answers[1..],
        if answers[0].Label? then Assign(t, drives[0], answers[0].text) else t);
      assert Named(drives, answers) == Named(drives[1..], answers[1..]) + (if answers[0].Label? then {drives[0]} else {}) by {
        NamedStep(drives, answers);
      }
      match answers[0]
      case Label(name) => rest
      case Failed(code) => if code == NOT_READY then rest else Err(QueryFailed(drives[0], code))
  }

  /** Peeling the first drive off the named set. */
  lemma NamedStep(drives: seq<Path>, answers: seq<QueryResult>)
    requires |drives| == |answers| > 0
    ensures Named(drives, answers) == Named(drives[1..], answers[1..]) + (if answers[0].Label? then {drives[0]} else {})
  {
  }

  /** Reference for the table when every drive root is distinct (as
      `GetLogicalDriveStrings` reports them): the named drives, in order. */
  function Labelled(drives: seq<Path>, answers: seq<QueryResult>): seq<Volume>
    requires |drives| == |answers|
    decreases |drives|
  {
    if |drives| == 0 then []
    else
      (if answers[0].Label? then [Volume(drives[0], answers[0].text)] else [])
      + Labelled(drives[1..], answers[1..])
  }

  /** No drive root is listed twice. */
  predicate Distinct(ds: seq<Path>) {
    forall i, j :: 0 <= i < j < |ds| ==> ds[i] != ds[j]
  }

  /** A volume is in the reference table iff some drive answered with its name. */
  lemma {:induction false} LabelledMember(drives: seq<Path>, answers: seq<QueryResult>, v: Volume)
    requires |drives| == |answers|
    ensures v in Labelled(drives, answers)
        <==> exists i :: 0 <= i < |drives| && drives[i] == v.path && answers[i] == Label(v.name)
    decreases |drives|
  {
    if |drives| > 0 {
      LabelledMember(drives[1..], answers[1..], v);
      if exists i :: 0 <= i < |drives| && drives[i] == v.path && answers[i] == Label(v.name) {
        var i :| 0 <= i < |drives| && drives[i] == v.path && answers[i] == Label(v.name);
        if i > 0 {
          assert drives[1..][i - 1] == v.path && answers[1..][i - 1] == Label(v.name);
        }
      }
      if exists i :: 0 <= i < |drives| - 1 && drives[1..][i] == v.path && answers[1..][i] == Label(v.name) {
        var i :| 0 <= i < |drives| - 1 && drives[1..][i] == v.path && answers[1..][i] == Label(v.name);
        assert drives[i + 1] == v.path && answers[i + 1] == Label(v.name);
      }
    }
  }

  /** A new key is appended at the end. */
  lemma AssignFresh(t: DriveTable, drive: Path, name: string)
    requires DistinctKeys(t)
    requires drive !in Keys(t)
    ensures Assign(t, drive, name) == t + [Volume(drive, name)]
  {
  }

  /** With distinct drive roots and no fatal answer, the dict holds exactly
      the named drives in enumeration order, appended after `t`. */
  lemma {:induction false} BuildTableDistinct(drives: seq<Path>, answers: seq<QueryResult>, t: DriveTable)
    requires |drives| == |answers|
    requires DistinctKeys(t)
    requires Distinct(drives)
    requires forall i :: 0 <= i < |drives| ==> drives[i] !in Keys(t)
    requires FirstFatal(answers) == |answers|
    ensures BuildTable(drives, answers, t) == Ok(t + Labelled(drives, answers))
    decreases |drives|
  {
    if |drives| > 0 {
      var t' := if answers[0].Label? then Assign(t, drives[0], answers[0].text) else t;
      var head := if answers[0].Label? then [Volume(drives[0], answers[0].text)] else [];
      var rest := Labelled(drives[1..], answers[1..]);
      FreshAfterStep(drives, answers, t);
      BuildTableDistinct(drives[1..], answers[1..], t');
      BuildTableStep(drives, answers, t);
      assert t' == t + head;
      assert Labelled(drives, answers) == head + rest;
      ConcatAssoc(t, head, rest);
    } else {
      assert t + Labelled(drives, answers) == t;
    }
  }

  /** Sequence concatenation is associative (stated once, to keep the
      solver from rediscovering it inside larger proofs). */
  lemma ConcatAssoc<T>(a: seq<T>, b: seq<T>, c: seq<T>)
    ensures (a + b) + c == a + (b + c)
  {
  }

  /** One step of the query loop keeps the hypotheses of BuildTableDistinct. */
  lemma FreshAfterStep(drives: seq<Path>, answers: seq<QueryResult>, t: DriveTable)
    requires |drives| == |answers| > 0
    requires DistinctKeys(t)
    requires Distinct(drives)
    requires forall i :: 0 <= i < |drives| ==> drives[i] !in Keys(t)
    requires FirstFatal(answers) == |answers|
    ensures !Fatal(answers[0])
    ensures FirstFatal(answers[1..]) == |answers[1..]|
    ensures Distinct(drives[1..])
    ensures answers[0].Label? ==> Assign(t, drives[0], answers[0].text) == t + [Volume(drives[0], answers[0].text)]
    ensures var t' := if answers[0].Label? then Assign(t, drives[0], answers[0].text) else t;
      DistinctKeys(t') && forall i :: 0 <= i < |drives| - 1 ==> drives[1..][i] !in Keys(t')
  {
    if answers[0].Label? {
      AssignFresh(t, drives[0], answers[0].text);
    }
    var t' := if answers[0].Label? then Assign(t, drives[0], answers[0].text) else t;
    assert Keys(t') <= Keys(t) + {drives[0]};
    forall i | 0 <= i < |drives| - 1 ensures drives[1..][i] !in Keys(t') {
      assert drives[1..][i] == drives[i + 1] != drives[0];
    }
  }

  /** One non-fatal answer advances the query loop by one drive. */
  lemma BuildTableStep(drives: seq<Path>, answers: seq<QueryResult>, t: DriveTable)
    requires |drives| == |answers| > 0
    requires DistinctKeys(t)
    requires !Fatal(answers[0])
    ensures BuildTable(drives, answers, t)
         == BuildTable(drives[1..], answers[1..],
              if answers[0].Label? then Assign(t, drives[0], answers[0].text) else t)
  {
  }


  /** The Windows branch: split the buffer, query every drive in order,
      then keep the drives whose volume name passes the XBM rule. */
  function WinScan(driveBuffer: string, answers: seq<QueryResult>): (r: ScanResult)
    requires |answers| == |DriveStrings.SplitDrives(driveBuffer)|
    ensures r.Ok? <==> FirstFatal(answers) == |answers|
    ensures r.Err? ==>
      var k := FirstFatal(answers);
      r.error == QueryFailed(DriveStrings.SplitDrives(driveBuffer)[k], answers[k].code)
    ensures r.Ok? ==> forall p :: p in r.value ==> p in Named(DriveStrings.SplitDrives(driveBuffer), answers)
  {
    var drives := DriveStrings.SplitDrives(driveBuffer);
    match BuildTable(drives, answers, [])
    case Err(e) => Err(e)
    case Ok(t) =>
      var r := XbmPaths(t);
      assert forall p :: p in r ==> p in Keys(t) by {
        forall p | p in r ensures p in Keys(t) {
          var i :| 0 <= i < |r| && r[i] == p;
          var v :| v in t && IsXbmLabel(v.name) && v.path == r[i];
        }
      }
      Ok(r)
  }

  /** Selection on Windows: a drive is reported iff its query returned a
      volume name that passes the XBM rule, and the order is enumeration
      order. */
  lemma WinScanSelects(driveBuffer: string, answers: seq<QueryResult>)
    requires |answers| == |DriveStrings.SplitDrives(driveBuffer)|
    requires Distinct(DriveStrings.SplitDrives(driveBuffer))
    requires FirstFatal(answers) == |answers|
    ensures WinScan(driveBuffer, answers) == Ok(XbmPaths(Labelled(DriveStrings.SplitDrives(driveBuffer), answers)))
    ensures forall i :: 0 <= i < |answers| && answers[i].Label? && IsXbmLabel(answers[i].text)
              ==> DriveStrings.SplitDrives(driveBuffer)[i] in WinScan(driveBuffer, answers).value
    ensures forall p :: p in WinScan(driveBuffer, answers).value ==>
              exists i :: 0 <= i < |answers| && DriveStrings.SplitDrives(driveBuffer)[i] == p
                && answers[i].Label? && IsXbmLabel(answers[i].text)
  {
    var drives := DriveStrings.SplitDrives(driveBuffer);
    BuildTableDistinct(drives, answers, []);
    assert [] + Labelled(drives, answers) == Labelled(drives, answers);
    forall i | 0 <= i < |answers| && answers[i].Label? && IsXbmLabel(answers[i].text)
      ensures drives[i] in XbmPaths(Labelled(drives, answers))
    {
      LabelledMember(drives, answers, Volume(drives[i], answers[i].text));
    }
    var r := XbmPaths(Labelled(drives, answers));
    forall p | p in r
      ensures exists i :: 0 <= i < |answers| && drives[i] == p && answers[i].Label? && IsXbmLabel(answers[i].text)
    {
      var k :| 0 <= k < |r| && r[k] == p;
      var v :| v in Labelled(drives, answers) && IsXbmLabel(v.name) && v.path == r[k];
      LabelledMember(drives, answers, v);
      var i :| 0 <= i < |drives| && drives[i] == v.path && answers[i] == Label(v.name);
      assert answers[i].text == v.name;
    }
  }

  /** A drive whose query returned no name is not in the scan's result. */
  lemma UnnamedNotSelected(driveBuffer: string, answers: seq<QueryResult>, i: nat)
    requires |answers| == |DriveStrings.SplitDrives(driveBuffer)|
    requires Distinct(DriveStrings.SplitDrives(driveBuffer))
    requires i < |answers| && !answers[i].Label?
    ensures WinScan(driveBuffer, answers).Ok? ==>
              DriveStrings.SplitDrives(driveBuffer)[i] !in WinScan(driveBuffer, answers).value
  {
  }

  /** A drive that answered "not ready" is skipped, not reported, and does
      not stop the scan. */
  lemma NotReadySkipped(driveBuffer: string, answers: seq<QueryResult>, i: nat)
    requires |answers| == |DriveStrings.SplitDrives(driveBuffer)|
    requires Distinct(DriveStrings.SplitDrives(driveBuffer))
    requires i < |answers| && answers[i] == Failed(NOT_READY)
    ensures FirstFatal(answers) != i
    ensures WinScan(driveBuffer, answers).Ok? ==>
              DriveStrings.SplitDrives(driveBuffer)[i] !in WinScan(driveBuffer, answers).value
  {
  }

  // --------------------------------------------------------- macOS branch

  /** Mount points live under this directory; `listdir` returns the names
      in it, and the name doubles as the volume label. */
  const MOUNT_PREFIX: string := "/Volumes/"

  /** As written, `Path(volume)` keeps the bare directory entry name. */
  function NameVolumes(names: seq<string>): (r: seq<Volume>)
    ensures |r| == |names|
    ensures forall i :: 0 <= i < |names| ==> r[i] == Volume(names[i], names[i])
    ensures forall v :: v in r ==> v.path == v.name && v.name in names
  {
    seq(|names|, i requires 0 <= i < |names| => Volume(names[i], names[i]))
  }

  /** The macOS branch exactly as written. */
  function MacScanAsWritten(names: seq<string>): (r: seq<Path>)
    ensures forall p :: p in r ==> p in names && IsXbmLabel(p)
    ensures forall n :: n in names && IsXbmLabel(n) ==> n in r
  {
    XbmPaths(NameVolumes(names))
  }

  /** As written, every reported path is a bare name starting with `X`: a
      path relative to the working directory, never the mount point. */
  lemma MacScanAsWrittenIsRelative(names: seq<string>)
    ensures forall p :: p in MacScanAsWritten(names) ==> p in names && IsXbmLabel(p)
    ensures forall p :: p in MacScanAsWritten(names) ==> p[0] == 'X' != MOUNT_PREFIX[0]
  {
  }

  /** A concrete case: the logger mounted at /Volumes/X1D2 is reported as
      the relative path `X1D2`. */
  lemma MacScanAsWrittenExample()
    ensures MacScanAsWritten(["X1D2"]) == ["X1D2"]
  {
    Examples();
    assert NameVolumes(["X1D2"]) == [Volume("X1D2", "X1D2")];
    FilterXbmSingle(Volume("X1D2", "X1D2"));
  }

  /** `/Volumes/<name>`, the directory the entry `name` is mounted at. */
  function MountPoint(name: string): (p: Path)
    ensures |p| == |MOUNT_PREFIX| + |name|
    ensures p[..|MOUNT_PREFIX|] == MOUNT_PREFIX
    ensures p[|MOUNT_PREFIX|..] == name
  {
    MOUNT_PREFIX + name
  }

  /** Each directory entry paired with its mount point. */
  function MountVolumes(names: seq<string>): (r: seq<Volume>)
    ensures |r| == |names|
    ensures forall i :: 0 <= i < |names| ==> r[i] == Volume(MountPoint(names[i]), names[i])
    ensures forall v :: v in r ==> v.path == MountPoint(v.name) && v.name in names
  {
    seq(|names|, i requires 0 <= i < |names| => Volume(MountPoint(names[i]), names[i]))
  }

  /** The intended macOS branch: the mount point of every accepted name. */
  function MacScan(names: seq<string>): (r: seq<Path>)
    ensures |r| <= |names|
    ensures forall p :: p in r ==>
      && |MOUNT_PREFIX| < |p|
      && p[..|MOUNT_PREFIX|] == MOUNT_PREFIX
      && p[|MOUNT_PREFIX|..] in names
      && IsXbmLabel(p[|MOUNT_PREFIX|..])
    ensures forall n :: n in names && IsXbmLabel(n) ==> MountPoint(n) in r
  {
    MacScanSound(names);
    MacScanComplete(names);
    XbmPaths(MountVolumes(names))
  }

  /** The macOS result keeps the order of the `/Volumes` listing. */
  lemma MacScanAppend(a: seq<string>, b: seq<string>)
    ensures MacScan(a + b) == MacScan(a) + MacScan(b)
  {
    assert MountVolumes(a + b) == MountVolumes(a) + MountVolumes(b);
    XbmPathsAppend(MountVolumes(a), MountVolumes(b));
  }

  /** Every reported path is the mount point of an accepted entry. */
  lemma MacScanSound(names: seq<string>)
    ensures forall p :: p in XbmPaths(MountVolumes(names)) ==>
      exists n :: n in names && IsXbmLabel(n) && p == MountPoint(n)
  {
  }

  /** Every accepted entry's mount point is reported. */
  lemma MacScanComplete(names: seq<string>)
    ensures forall n :: n in names && IsXbmLabel(n) ==> MountPoint(n) in XbmPaths(MountVolumes(names))
  {
    var vols := MountVolumes(names);
    forall n | n in names && IsXbmLabel(n) ensures MountPoint(n) in XbmPaths(vols) {
      var i :| 0 <= i < |names| && names[i] == n;
      assert vols[i] in vols;
    }
  }

  // ------------------------------------------------------ platform dispatch

  /** Which branch of `getXBMdrives` runs, decided by the lower-cased
      `platform.system()` name. */
  datatype Platform = Windows | Darwin | Unsupported

  /** `myOS.startswith('win')`, then `myOS == 'darwin'`, else unsupported. */
  function Classify(osName: string): (p: Platform)
    ensures p == Windows <==> |osName| >= 3 && osName[..3] == "win"
    ensures p == Darwin <==> osName == "darwin"
  {
    assert "darwin"[..3] == "dar";
    if |osName| >= 3 && osName[..3] == "win" then Windows
    else if osName == "darwin" then Darwin
    else Unsupported
  }

  /** What the operating system would answer during one scan: the
      `GetLogicalDriveStrings` buffer and one `GetVolumeInformation` answer
      per listed drive (Windows), the entries of `/Volumes` (macOS). */
  datatype OsView = OsView(driveBuffer: string, answers: seq<QueryResult>, volumeNames: seq<string>)

  /** One answer per drive root, so the Windows query loop is total. */
  predicate Answerable(osName: string, view: OsView) {
    Classify(osName) == Windows ==> |view.answers| == |DriveStrings.SplitDrives(view.driveBuffer)|
  }

  /** `getXBMdrives()` for a given platform and system state. */
  function Scan(osName: string, view: OsView): (r: ScanResult)
    requires Answerable(osName, view)
    ensures Classify(osName) == Unsupported <==> r == Err(NotSupported(osName))
    ensures Classify(osName) == Darwin ==> r.Ok?
    ensures Classify(osName) == Windows ==> (r.Ok? <==> FirstFatal(view.answers) == |view.answers|)
    ensures r.Err? && r.error.QueryFailed? ==> Classify(osName) == Windows
    ensures Classify(osName) == Windows && r.Err? ==>
      var k := FirstFatal(view.answers);
      r.error == QueryFailed(DriveStrings.SplitDrives(view.driveBuffer)[k], view.answers[k].code)
    ensures r.Ok? ==> forall p :: p in r.value ==>
      if Classify(osName) == Windows then p in Named(DriveStrings.SplitDrives(view.driveBuffer), view.answers)
      else
        && |MOUNT_PREFIX| < |p|
        && p[..|MOUNT_PREFIX|] == MOUNT_PREFIX
        && p[|MOUNT_PREFIX|..] in view.volumeNames
        && IsXbmLabel(p[|MOUNT_PREFIX|..])
    ensures Classify(osName) == Darwin ==>
      forall n :: n in view.volumeNames && IsXbmLabel(n) ==> MountPoint(n) in r.value
  {
    match Classify(osName)
    case Windows => WinScan(view.driveBuffer, view.answers)
    case Darwin => Ok(MacScan(view.volumeNames))
    case Unsupported => Err(NotSupported(osName))
  }

  /** On macOS the scan reports the accepted entries in the order of the
      `/Volumes` listing, each once per listing. */
  lemma ScanKeepsListingOrder(osName: string, driveBuffer: string, answers: seq<QueryResult>,
                              a: seq<string>, b: seq<string>)
    requires Classify(osName) == Darwin
    ensures Scan(osName, OsView(driveBuffer, answers, a + b)).value
         == Scan(osName, OsView(driveBuffer, answers, a)).value
          + Scan(osName, OsView(driveBuffer, answers, b)).value
  {
    MacScanAppend(a, b);
  }

  /** On Windows, with distinct roots and no failing query, the scan is
      exactly the named drives whose name passes the XBM rule, in order. */
  lemma ScanWindowsSelects(osName: string, view: OsView)
    requires Classify(osName) == Windows
    requires |view.answers| == |DriveStrings.SplitDrives(view.driveBuffer)|
    requires Distinct(DriveStrings.SplitDrives(view.driveBuffer))
    requires FirstFatal(view.answers) == |view.answers|
    ensures Scan(osName, view) == Ok(XbmPaths(Labelled(DriveStrings.SplitDrives(view.driveBuffer), view.answers)))
  {
    WinScanSelects(view.driveBuffer, view.answers);
  }
}

=== FILE: transfer.dfy ===
/** What `mainCLI` does with a poll result, and the File Transfer step
    `transferdata`. The glob of `DATA-*.csv` files is an input (`logs`);
    directory creation and copying are described as a plan of actions. */
module Transfer {
  import opened Results
  import opened VolumeScanner
  import opened Poller

  /** `if xbmdrives: sourcedrive = xbmdrives[0]`: the drive to download
      from, `None` when the poll found nothing, or the scan's exception. */
  function SourceDrive(outcome: PollOutcome): (r: Result<Option<Path>, ScanError>)
    ensures r.Ok? && r.value.Some? <==> outcome.Found? && |outcome.drives| > 0
    ensures r.Ok? && r.value.Some? ==> outcome.drives == [r.value.value] + outcome.drives[1..]
    ensures r.Err? <==> outcome.ScanFailed?
    ensures outcome.ScanFailed? ==> r == Err(outcome.error)
  {
    match outcome
    case Found(drives) => if |drives| > 0 then Ok(Some(drives[0])) else Ok(None)
    case NoneFound => Ok(None)
    case ScanFailed(e) => Err(e)
  }

  /** The drive chosen for download is the first drive of the first scan
      that found any XBM volume; the scans before it were all empty. */
  lemma SourceIsFirstOfFirstHit(timeout: int, results: seq<ScanResult>)
    requires Attempts(timeout) <= |results|
    ensures var src := SourceDrive(Poll(timeout, results).outcome);
      src.Ok? && src.value.Some? ==>
        exists k :: 0 <= k < Attempts(timeout)
          && results[k].Ok? && |results[k].value| > 0 && results[k].value[0] == src.value.value
          && forall j :: 0 <= j < k ==> EmptyScan(results[j])
    ensures var src := SourceDrive(Poll(timeout, results).outcome);
      src == Ok(None) <==> forall j :: 0 <= j < Attempts(timeout) ==> EmptyScan(results[j])
  {
  }

  /** An action `transferdata` performs on the filesystem. */
  datatype Action = MakeDirs(dir: Path) | Copy(source: Path, dir: Path)

  /** How `transferdata` ends: early return, an exception, or the actions
      it performed. */
  datatype TransferOutcome =
    | NoLogFiles
    | NameError(undefined: string)
    | Performed(actions: seq<Action>)

  /** `transferdata` as written: with no logs it returns early; otherwise
      the output-path f-string reads `date`, which is not defined in that
      function's scope, so it raises before any directory or copy. */
  function TransferAsWritten(logs: seq<Path>): (r: TransferOutcome)
    ensures r == NoLogFiles <==> |logs| == 0
    ensures !r.Performed?
  {
    if |logs| == 0 then NoLogFiles else NameError("date")
  }

  /** As written, no log file is ever copied, whatever the volume holds. */
  lemma TransferAsWrittenNeverCopies(logs: seq<Path>, outDir: Path, outDirExists: bool)
    requires |logs| > 0
    ensures TransferAsWritten(logs) == NameError("date")
    ensures !TransferAsWritten(logs).Performed? && TransferPlan(logs, outDir, outDirExists).Performed?
    ensures Sources(TransferPlan(logs, outDir, outDirExists).actions) == logs
  {
  }

  /** The sources of the copy actions, in order. */
  function Sources(actions: seq<Action>): seq<Path>
    decreases |actions|
  {
    if |actions| == 0 then []
    else (if actions[0].Copy? then [actions[0].source] else []) + Sources(actions[1..])
  }

  function Copies(logs: seq<Path>, outDir: Path): (r: seq<Action>)
    ensures |r| == |logs|
    ensures forall i :: 0 <= i < |logs| ==> r[i] == Copy(logs[i], outDir)
  {
    seq(|logs|, i requires 0 <= i < |logs| => Copy(logs[i], outDir))
  }

  lemma {:induction false} SourcesOfCopies(logs: seq<Path>, outDir: Path)
    ensures Sources(Copies(logs, outDir)) == logs
    decreases |logs|
  {
    if |logs| > 0 {
      SourcesOfCopies(logs[1..], outDir);
      assert Copies(logs, outDir)[1..] == Copies(logs[1..], outDir);
    }
  }

  /** `transferdata` with the output directory that was evidently meant
      (built from the drop's date, location, system name and logger index;
      its formatting is not modelled). `outDirExists` is the answer of
      `outpath.exists()`. */
  function TransferPlan(logs: seq<Path>, outDir: Path, outDirExists: bool): (r: TransferOutcome)
    ensures r == NoLogFiles <==> |logs| == 0
    ensures |logs| > 0 ==> r.Performed?
    ensures r.Performed? ==>
      && Sources(r.actions) == logs
      && (forall a :: a in r.actions && a.Copy? ==> a.dir == outDir)
      && (forall i :: 0 < i < |r.actions| ==> r.actions[i].Copy?)
      && (outDirExists <==> r.actions[0].Copy?)
      && (!outDirExists ==> r.actions[0] == MakeDirs(outDir))
  {
    if |logs| == 0 then NoLogFiles
    else
      var copies := Copies(logs, outDir);
      SourcesOfCopies(logs, outDir);
      if outDirExists then Performed(copies)
      else
        var actions := [MakeDirs(outDir)] + copies;
        assert actions[1..] == copies;
        Performed(actions)
  }
}
